=== FILE: README.md ===
# Face-recognition access control: decision, notifier, capture and training

This project models the logic core of a small face-recognition door
controller. It has two programs.

- **Detection loop** (`src/detection.py`). For every camera frame it
  classifies each detected face. A face gets the name of its most probable
  class only when that probability is strictly above 0.8; otherwise it is
  "Inconnu". The label and colour of the *last* face become the frame's, and
  a frame without faces is named "Face the camera". The frame's name then
  goes to a rate-limited serial notifier, once per frame. The notifier sends
  `name + "\n"` at most once every 5 seconds.
- **Enrolment and training tool** (`src/entrainement.py`). It validates a
  typed identity name and creates the identity's directory. It saves up to 30
  face crops as `0.jpg … 29.jpg` and then keeps or drops the directory. To
  train, it collects one feature row and one owner per readable image,
  refuses an empty collection, and encodes the owners with a label encoder
  whose classes are the sorted distinct names.

The camera, the face detector, the feature extractor, the classifier, the
clock and the serial port are outside the model. Their results are inputs:
rectangles with probability vectors, a `ret` flag per read, a clock value
`now`, whether the serial write succeeds, the key code `waitKey` returned,
and an `extract` function from images to features. Both endless loops run
over a finite sequence of such inputs. An `exited`/`stopped` result says
whether the loop really left, or whether the inputs ran out first.

Modules, one per file:

| file | module | models |
|---|---|---|
| `common.dfy` | `Common` | `Option`, rectangles, grayscale images, features |
| `decision.dfy` | `Decision` | `np.argmax` and the strict 0.8 threshold |
| `notifier.dfy` | `Notifier` | `envoyer_serial` as a step function; replay of a call sequence |
| `detection.dfy` | `Detection` | per-face label, per-frame label, the camera loop |
| `label_encoder.dfy` | `LabelEncoder` | `fit_transform`, `inverse_transform`, code-point string order |
| `dataset.dfy` | `Dataset` | the dataset root as a listing of directories and files; `str(i) + ".jpg"` names |
| `capture.dfy` | `Capture` | `str.strip`, `start_capture`, `add_user`, `cancel_capture` |
| `training.dfy` | `Training` | sample assembly, the empty-dataset guard, the stored artifact |

Facts of the code that the model keeps as they are:

- The notifier's docstring says it sends every 3 seconds; the code waits 5.
- The unknown-face name is "Inconnu".
- A frame without faces still calls the notifier, with "Face the camera".
- The timestamp moves before the write is tried. So an absent port or a
  failing write still uses up the cooldown.
- An interrupted capture removes its directory with `os.rmdir`, which fails
  once samples were saved (see Findings). `Capture.AddUser` keeps that
  behaviour; `Capture.AddUserIntended` is the ending that leaves no partially
  captured identity.

## Model

| member | source | states |
|---|---|---|
| Decision.ArgMax | src/detection.py:68 | the index returned holds a maximal probability, and every earlier entry is strictly smaller, so it is the first maximum as `np.argmax` picks it |
| Decision.Decide | src/detection.py:67-72 | a face is recognised exactly when some probability is strictly above 0.8, and then it gets the class at the argmax; if no probability exceeds 0.8 its name is "Inconnu" |
| Decision.ExactlyThresholdIsUnknown | src/detection.py:67 | a maximum equal to the threshold gives "Inconnu", because the comparison is strict |
| Detection.FaceLabel | src/detection.py:67-76 | a face's box keeps its region; the colour is green (0,255,0) exactly when the face is confidently recognised, with the argmax class name; otherwise it is red (0,0,255) with "Inconnu" |
| Detection.LabelFrame | src/detection.py:57-76 | with no faces the name is "Face the camera" in red and nothing is drawn; otherwise every face is drawn with its own label, and the frame's name and colour are the last face's, so earlier faces are overwritten |
| Detection.FrameName | src/detection.py:57-72 | the name a frame hands to the notifier: "Face the camera" without faces, else the last face's label (no contract: a definition, characterised by `Detection.LabelFrame`) |
| Detection.QuitKey | src/detection.py:83 | `waitKey(1) & 0xFF == ord('q')` as `key % 256 == 113`; Dafny's `%` never yields a negative remainder, so it agrees with the mask for negative codes too (no contract: a definition) |
| Detection.ProcessFrame | src/detection.py:54-79 | processing one read frame adds exactly one notifier call, with the frame's name, and advances the notifier by exactly that call |
| Detection.CallsUpTo | src/detection.py:79 | the `envoyer_serial` calls made by the first n processed frames: exactly n of them, one per frame (their contents are in `Detection.CallsUpToPointwise`) |
| Detection.CallsUpToPointwise | src/detection.py:57-79 | the k-th notifier call carries frame k's resolved name, its clock reading and its write outcome: one call per processed frame, faces or not |
| Detection.RunDetection | src/detection.py:49-84 | the loop processes the longest prefix of successfully read frames that has no 'q' (`key & 0xFF == 113`) before its last frame; it stops exactly on a failed read or after a frame whose key is 'q'; the notifier state is the replay of one call per processed frame |
| Notifier.Notify | src/detection.py:31-44 | a send is attempted exactly when at least 5 s have passed since the last attempt; an attempt sets the timestamp to `now` and writes `message + "\n"`; otherwise the state is unchanged; the line is delivered exactly when the port is open and the write succeeds; with no port, the cooldown is still used up |
| Notifier.Replay | src/detection.py:47-79 | the notifier after a sequence of calls, starting from the start-up timestamp: one event per call (its other properties are in `Notifier.SendsSpaced` and `Notifier.WindowBound`) |
| Notifier.SendsSpaced | src/detection.py:36-47 | whatever the clock readings, attempted sends are at least 5 s apart, the first comes at least 5 s after start-up, and the state holds the time of the latest attempt |
| Notifier.WindowBound | src/detection.py:36-37 | in any time window of length w, at most floor(w / 5) + 1 sends are attempted |
| Notifier.FirstSendDelayed | src/detection.py:36-47 | starting at time 0, calls at 0 s, 3 s and 5.1 s attempt a send only at 5.1 s |
| Capture.IsSpace | src/entrainement.py:92 | the 29 characters Python's `str.isspace` accepts, which `strip()` removes (no contract: a definition) |
| Capture.Strip | src/entrainement.py:92 | the stripped name is an infix of the typed text, everything outside it is whitespace as `str.isspace` defines it, and it neither starts nor ends with whitespace |
| Capture.StripEmpty | src/entrainement.py:92-93 | the stripped name is empty exactly when the typed text is all whitespace |
| Capture.StripIdempotent | src/entrainement.py:92 | stripping twice is the same as stripping once |
| Capture.StartCapture | src/entrainement.py:91-105 | the request is rejected as empty exactly when the text is all whitespace, and as a duplicate exactly when the stripped name already exists; a rejection changes nothing; otherwise an empty directory with the stripped name is added and capturing starts |
| Capture.StartKeepsNamesDistinct | src/entrainement.py:97-102 | starting a capture never puts two entries with the same name in the dataset root |
| Capture.CancelCapture | src/entrainement.py:144-146 | cancelling lowers the capturing flag and leaves the dataset alone |
| Capture.AllFaces | src/entrainement.py:125-130 | the crops of the successfully read frames of the given turns, in order; a failed read contributes nothing (no contract: a definition; `Capture.CaptureLoop` states what is saved from it) |
| Capture.SaveFaces | src/entrainement.py:130-134 | the faces of one frame raise the count by one each until it reaches 30; face k overall is saved as `k.jpg` |
| Capture.CaptureLoop | src/entrainement.py:121-135 | the count never exceeds 30 and equals min(30, faces in successfully read frames); sample k is crop k saved as `k.jpg`, names are pairwise distinct; every consumed turn found the flag up and fewer than 30 samples saved before it, and the loop exits exactly when 30 are saved or the flag is down |
| Capture.FinishAsWritten | src/entrainement.py:137-142 | as the code is written: the flag goes down; 30 samples keep the directory; an empty directory is removed; with 1 to 29 samples `os.rmdir` fails and the partial directory stays |
| Capture.PartialCaptureLeftBehind | src/entrainement.py:138-142 | a capture interrupted after 1 to 29 samples fails to remove its directory, and the partial samples stay in the dataset |
| Capture.Finish | src/entrainement.py:137-142 | the ending that leaves no partially captured identity: the flag goes down; with 30 samples the directory keeps them; with fewer the identity is gone from the dataset; other entries are kept |
| Capture.AddUser | src/entrainement.py:120-142 | as written: the saved samples are crop k as `k.jpg` for the first min(30, faces read) faces of the consumed turns, and each consumed turn began with the flag up and fewer than 30 saved; there is an outcome exactly when the loop exited (30 saved or the flag down); while running the directory holds the samples so far; after exit the flag is down, 30 samples give "added", none gives a removed directory, and 1 to 29 give a failed removal with the partial samples kept |
| Capture.AddUserIntended | src/entrainement.py:120-142 | the same loop, with the same facts about consumed turns, and the ending that leaves no partially captured identity: after exit the identity either has exactly 30 samples or is absent, and removal never fails |
| Dataset.Exists | src/entrainement.py:98 | `os.path.exists` on `dataset/<name>`: some entry, directory or file, has that name (no contract: a definition) |
| Dataset.SetFiles | src/entrainement.py:132 | the listing after the files of directory `name` are replaced: same length, that directory holds the given files, every other entry unchanged |
| Dataset.RemoveEntry | src/entrainement.py:142 | what a successful removal of the directory leaves: no entry of that name, every other entry kept |
| Dataset.Digits | src/entrainement.py:132 | `str(count)`: the decimal numeral that reads back as the count, without a leading zero; one character exactly for counts below 10 |
| Dataset.SampleName | src/entrainement.py:132 | `f"{count}.jpg"` as the digits of the count followed by ".jpg" (no contract: a definition; see `Dataset.SampleNameInjective`) |
| Dataset.DigitsInjective | src/entrainement.py:132 | different counters never print to the same decimal text |
| Dataset.SampleNameInjective | src/entrainement.py:132 | `i.jpg` and `j.jpg` are the same name exactly when i = j |
| Training.DirSamples | src/entrainement.py:159-166 | what the inner loop collects from one directory: its readable images in file order, each with the directory's name (no contract: a definition; see `Training.DirSamplesExact` and `Training.DirSamplesIndexed`) |
| Training.Samples | src/entrainement.py:155-166 | what both loops collect: the samples of each directory of the root in listing order, plain files skipped (no contract: a definition; see `Training.SamplesExact` and `Training.SamplesIndexed`) |
| Training.DirSamplesExact | src/entrainement.py:159-166 | a directory contributes exactly its readable images, each labelled with the directory's name |
| Training.SamplesExact | src/entrainement.py:155-166 | the collected samples are exactly the readable images inside directories of the root, each with its directory's name: nothing from plain files, nothing unreadable, nothing missed |
| Training.NoSamplesIffNoReadableImage | src/entrainement.py:155-170 | nothing is collected exactly when no directory holds a readable image |
| Training.ReadableIndices | src/entrainement.py:159-163 | the positions of a directory's readable files, strictly increasing, each readable file's position listed |
| Training.DirSamplesIndexed | src/entrainement.py:159-166 | a directory yields exactly one sample per readable file, in file order, so equal crops give one sample each and nothing is repeated |
| Training.ReadablePositionsReadable | src/entrainement.py:156-163 | every listed position is a readable file inside a directory of the root |
| Training.ReadablePositionsSorted | src/entrainement.py:156-159 | the listed positions are strictly increasing in listing order, so no file is listed twice |
| Training.ReadablePositionsComplete | src/entrainement.py:156-163 | every readable file inside a directory of the root is listed |
| Training.SamplesIndexed | src/entrainement.py:155-166 | sample m is the image at the m-th readable position, labelled with its directory's name, and there are exactly as many samples as readable images |
| Training.AssembleDir | src/entrainement.py:159-166 | the inner loop appends one feature row and one owner per readable file of one directory, in order |
| Training.Assemble | src/entrainement.py:155-166 | the features and owners have one entry per collected sample, with equal lengths; row k is the features of sample k and owner k its directory name |
| Training.TrainModel | src/entrainement.py:153-179 | the outcome is "no training data" exactly when nothing was collected, "fit failed" exactly when samples exist and fitting fails, and in both cases the stored artifact is untouched; a write failure leaves the old artifact if opening the file failed and no loadable artifact if the dump failed after `"wb"` truncated it; a written artifact has sorted classes that are exactly the owners, and pairs each sample's features with the code of its owner |
| LabelEncoder.Less | src/entrainement.py:172 | the order `np.unique` sorts the labels in: lexicographic by code point, a proper prefix first (no contract: a definition; see the three lemmas below) |
| LabelEncoder.LessIrreflexive | src/entrainement.py:172 | no string is before itself |
| LabelEncoder.LessTransitive | src/entrainement.py:172 | code-point string order is transitive |
| LabelEncoder.LessTotal | src/entrainement.py:172 | any two different strings are ordered one way or the other |
| LabelEncoder.Classes | src/entrainement.py:172 | the classes are exactly the labels that occur |
| LabelEncoder.ClassesSorted | src/entrainement.py:172 | the classes are strictly increasing, so each label appears once |
| LabelEncoder.IndexOf | src/entrainement.py:172 | the lookup `transform` performs: the position of the first class equal to the label |
| LabelEncoder.Transform | src/entrainement.py:172 | every label gets a code below the class count whose class is that label |
| LabelEncoder.FitTransform | src/entrainement.py:172 | the classes are sorted, are exactly the distinct labels, and number as many as the distinct labels; there is one code per label; decoding each code gives back its label |
| LabelEncoder.EncodingInjective | src/entrainement.py:172 | two labels get the same code exactly when they are equal |
| LabelEncoder.EncodingSurjective | src/entrainement.py:172 | every code in [0, N) is used, N being the number of distinct labels |
| LabelEncoder.InverseTransform | src/detection.py:68 | decoding a code gives one of the classes |
| LabelEncoder.InverseRoundTrip | src/detection.py:68 | for sorted classes, encoding the decoded name of a code gives the code back |

## Left out

- HOG feature extraction and the 128×128 resize: OpenCV internals. `Assemble` and `TrainModel` take an `extract` function parameter instead.
- Haar-cascade face detection and the crop `gray[y:y+h, x:x+w]`: the detector's output is an input, as rectangles with their probability vectors (detection) or as crops (capture).
- SVM fitting and `predict_proba`: scikit-learn internals. The probability vector is an input. Whether encoding and fitting succeed is a boolean `fitOk` (scikit-learn rejects, for example, a single class). Writing the artifact is a `Persist` input: opening fails, the dump fails after the file was truncated, or it is written. The stored artifact keeps the encoder classes and the coded training set, not a fitted model; a truncated or partial file is modelled as no artifact.
- Loading the pickled model at start-up, opening the serial port at 9600 baud, and the 2 s sleep: start-up I/O. Whether the port opened is the `Channel` parameter.
- Serial `write` and `flush`, and UTF-8 encoding: device I/O. One `writeOk` flag per call stands for "neither raised". The line is kept as a string.
- `time.time()` and camera reads: replaced by the `now`, `ret` and frame inputs.
- `imshow`, `putText`, `rectangle`, the Tk/ttkbootstrap windows, progress labels and message boxes: their display is not modelled. The drawn labels are returned as data, and message boxes become outcome values. The progress label can still end `add_user`, as the next line says.
- Capture.AddUser: a cancel that arrives while the current turn still has a crop to save ends `add_user` by a Tk error. `cancel_capture` destroys the window that owns `progress_label` (src/entrainement.py:82, 146). The next crop is written, then the `progress_label.config` call at src/entrainement.py:134 raises, and the thread dies before the ending at src/entrainement.py:137-142 runs. Example: a turn with two crops, cancelled during `cap.read()`. The program leaves `0.jpg` and never calls `os.rmdir`. The model reads the flag once per turn, so it saves either both crops or none. A cancel before the label update at src/entrainement.py:122 raises the same way, with no crop saved. In each case the directory stays, empty or holding the crops saved so far.
- The delays `waitKey(300)` and `waitKey(1)`: timing only. The key code from `waitKey(1)` in the detection loop is an input.
- The preview thread `update_video_feed` and the two daemon threads: concurrency. The capture loop reads the shared flag as one input per turn, which may flip at any turn.
- Paths: identities are names in a listing, and `os.path.join` is not modelled. A name containing `/` or `..` would mean a different path on a real filesystem.
- JPEG encoding: a saved crop is modelled as decoding back to the same image. JPEG is lossy, so on disk it would not.
- The broad `except Exception` of `train_model`: errors raised by fitting are folded into `fitOk` and those raised by writing into `Persist`. Errors raised while listing or reading are not modelled; unreadable images are `None`.
- Capture.SaveFaces: `cv2.imwrite` reports failure by returning False, and the code ignores it and still counts the sample. The model assumes every write succeeds, so `k.jpg` always holds crop k.
- Capture.StartCapture: a new identity is listed after the existing entries. `os.listdir` promises no order: NTFS lists by name and ext4 in hash order. Training does not depend on it, since the listing order is an input of `Training.Samples`.
- Capture.AddUser: the samples are listed as `0.jpg, 1.jpg, …` in index order, although a filesystem may list `10.jpg` before `2.jpg`. The same holds for `Capture.AddUserIntended`.
- Capture.StartCapture: names are compared exactly. On a case-insensitive filesystem, such as the Windows one the `COM15` port suggests, `os.path.exists` would reject "Alice" after "alice", and the model starts it. `os.makedirs` raising for a name the operating system refuses is not modelled either.
- Floating point: probabilities from `predict_proba` and readings of `time.time()` are Python floats; the model uses exact reals. `Decision.Threshold` stands for the double nearest 0.8, which is slightly above 8/10, so "exactly 0.8" in `Decision.ExactlyThresholdIsUnknown` means a probability equal to that double. NaN is not modelled. Subtracting two timestamps of similar size is exact in floating point, so the 5 s cooldown comparison is unaffected.
- The endless loops: both run over a finite sequence of inputs. `RunDetection` and `CaptureLoop` report whether they actually exited.
- Decision.ExactlyThresholdIsUnknown: states only the boundary case. The full rule is the contract of `Decision.Decide`.
- Notifier.FirstSendDelayed: one concrete schedule. The general bound on the first send is in `Notifier.SendsSpaced`.

## Findings

| source | as written | input that shows it | evidently intended | confidence | as-written member | corrected member |
|---|---|---|---|---|---|---|
| src/entrainement.py:138-142 | when fewer than 30 samples were saved, the directory is removed with `os.rmdir`, which only removes an empty directory | a capture cancelled after 5 faces were saved: `0.jpg … 4.jpg` exist, `os.rmdir` raises, and the partial identity stays in the dataset for training to pick up | an interrupted capture removes the directory together with its samples, so no partially captured identity remains | not executed | Capture.FinishAsWritten, Capture.PartialCaptureLeftBehind, Capture.AddUser | Capture.Finish, Capture.AddUserIntended |

=== FILE: capture.dfy ===
/**
 * Capturing a new identity: validate the typed name, create its directory,
 * save up to 30 face crops as `0.jpg … 29.jpg`, then keep the directory or
 * drop it.
 */
module Capture {
  import opened Common
  import opened Dataset

  /** Number of face crops that completes a capture. */
  const Target: nat := 30

  /**
   * The characters Python's `str.isspace` accepts, and so what `strip()`
   * removes: tab to carriage return, the four separator controls 0x1C-0x1F,
   * space, next line, no-break space, and the Unicode space separators.
   */
  predicate IsSpace(c: char)
  {
    var n := c as int;
    || 0x09 <= n <= 0x0D || 0x1C <= n <= 0x20 || n == 0x85 || n == 0xA0
    || n == 0x1680 || 0x2000 <= n <= 0x200A || n == 0x2028 || n == 0x2029
    || n == 0x202F || n == 0x205F || n == 0x3000
  }

  /** The first position at or after `from` that does not hold whitespace. */
  function SkipSpaces(s: string, from: nat): (n: nat)
    requires from <= |s|
    ensures from <= n <= |s|
    ensures forall k :: from <= k < n ==> IsSpace(s[k])
    ensures n < |s| ==> !IsSpace(s[n])
    decreases |s| - from
  {
    if from < |s| && IsSpace(s[from]) then SkipSpaces(s, from + 1) else from
  }

  /** The start of the whitespace run that ends `s[lo..hi]`. */
  function SkipSpacesBack(s: string, lo: nat, hi: nat): (n: nat)
    requires lo <= hi <= |s|
    ensures lo <= n <= hi
    ensures forall k :: n <= k < hi ==> IsSpace(s[k])
    ensures n > lo ==> !IsSpace(s[n - 1])
    decreases hi
  {
    if hi > lo && IsSpace(s[hi - 1]) then SkipSpacesBack(s, lo, hi - 1) else hi
  }

  /** `r` is `s[i..j]` and everything of `s` outside that infix is whitespace. */
  ghost predicate InfixWithin(s: string, r: string, i: int, j: int)
  {
    && 0 <= i <= j <= |s| && r == s[i..j]
    && (forall k :: 0 <= k < i ==> IsSpace(s[k]))
    && (forall k :: j <= k < |s| ==> IsSpace(s[k]))
  }

  /**
   * `str.strip()`: the infix of `s` left after removing whitespace at both
   * ends; it neither starts nor ends with whitespace.
   */
  function Strip(s: string): (r: string)
    ensures exists i, j :: InfixWithin(s, r, i, j)
    ensures |r| > 0 ==> !IsSpace(r[0]) && !IsSpace(r[|r| - 1])
  {
    var i := SkipSpaces(s, 0);
    var j := SkipSpacesBack(s, i, |s|);
    assert InfixWithin(s, s[i..j], i, j);
    s[i..j]
  }

  /** The stripped name is empty exactly when the input is all whitespace. */
  lemma StripEmpty(s: string)
    ensures Strip(s) == [] <==> forall k :: 0 <= k < |s| ==> IsSpace(s[k])
  {
  }

  /** Stripping twice changes nothing. */
  lemma StripIdempotent(s: string)
    ensures Strip(Strip(s)) == Strip(s)
  {
  }

  /** The dataset root as the capture window sees it, with the shared flag. */
  datatype Session = Session(dataset: Listing, capturing: bool)

  datatype StartError = EmptyName | AlreadyExists

  datatype Start = Rejected(reason: StartError) | Started(user: string)

  /**
   * "Start capture": reject an empty stripped name, or a name already present
   * in the dataset root, touching nothing; otherwise create the empty
   * directory and raise the flag.
   */
  function StartCapture(s: Session, typed: string): (r: (Session, Start))
    ensures r.1 == Rejected(EmptyName) <==> forall k :: 0 <= k < |typed| ==> IsSpace(typed[k])
    ensures r.1 == Rejected(AlreadyExists) <==> Strip(typed) != [] && Exists(s.dataset, Strip(typed))
    ensures r.1.Rejected? ==> r.0 == s
    ensures r.1.Started? ==> r.1.user == Strip(typed) && r.0.capturing
    ensures r.1.Started? ==> r.0.dataset == s.dataset + [Entry(r.1.user, Dir([]))]
  {
    var user := Strip(typed);
    StripEmpty(typed);
    if user == [] then (s, Rejected(EmptyName))
    else if Exists(s.dataset, user) then (s, Rejected(AlreadyExists))
    else (Session(s.dataset + [Entry(user, Dir([]))], true), Started(user))
  }

  /** Starting a capture never gives two dataset entries the same name. */
  lemma StartKeepsNamesDistinct(s: Session, typed: string)
    requires WellFormed(s.dataset)
    ensures WellFormed(StartCapture(s, typed).0.dataset)
  {
  }

  /** "Cancel": lower the shared flag; files are left to the capture loop. */
  function CancelCapture(s: Session): (r: Session)
    ensures !r.capturing
    ensures r.dataset == s.dataset
  {
    s.(capturing := false)
  }

  /**
   * One turn of the capture loop: the flag as the loop condition reads it,
   * whether the camera read succeeded, and the face crops found in the frame.
   */
  datatype Tick = Tick(capturing: bool, ret: bool, faces: seq<Image>)

  /** The crops of every successfully read frame, in order. */
  function AllFaces(ticks: seq<Tick>): (faces: seq<Image>)
    decreases |ticks|
  {
    if |ticks| == 0 then []
    else
      var t := ticks[|ticks| - 1];
      AllFaces(ticks[..|ticks| - 1]) + (if t.ret then t.faces else [])
  }

  /** The sample files a capture of `faces` writes: crop `k` as `k.jpg`. */
  ghost predicate SavedAs(saved: seq<FileEntry>, faces: seq<Image>)
  {
    && |saved| <= |faces|
    && forall k :: 0 <= k < |saved| ==> saved[k] == FileEntry(SampleName(k), Some(faces[k]))
  }

  /**
   * The inner `for` over the faces of one frame: each face is saved as the
   * next sample while fewer than 30 are saved, and skipped afterwards.
   */
  method SaveFaces(count: nat, saved: seq<FileEntry>, faces: seq<Image>, ghost before: seq<Image>)
    returns (count': nat, saved': seq<FileEntry>)
    requires count == Min(Target, |before|)
    requires |saved| == count && SavedAs(saved, before)
    ensures count' == Min(Target, |before| + |faces|)
    ensures |saved'| == count' && SavedAs(saved', before + faces)
  {
    count', saved' := count, saved;
    var j := 0;
    while j < |faces|
      invariant j <= |faces|
      invariant count' == Min(Target, |before| + j)
      invariant |saved'| == count' && SavedAs(saved', before + faces)
    {
      if count' < Target {
        saved' := saved' + [FileEntry(SampleName(count'), Some(faces[j]))];
        count' := count' + 1;
      }
      j := j + 1;
    }
  }

  /**
   * The `add_user` loop over a finite prefix of turns. Every detected face
   * adds one sample until 30 are saved; failed reads and empty frames add
   * nothing. The loop runs while fewer than 30 are saved and the flag is
   * up; `exited` is false when the turns ran out with the loop still running.
   */
  method CaptureLoop(ticks: seq<Tick>) returns (count: nat, saved: seq<FileEntry>, consumed: nat, exited: bool)
    ensures count <= Target
    ensures consumed <= |ticks|
    ensures count == Min(Target, |AllFaces(ticks[..consumed])|)
    ensures |saved| == count && SavedAs(saved, AllFaces(ticks[..consumed]))
    ensures forall i, j :: 0 <= i < j < |saved| ==> saved[i].name != saved[j].name
    ensures forall k :: 0 <= k < consumed ==> ticks[k].capturing
    ensures forall k :: 0 <= k < consumed ==> |AllFaces(ticks[..k])| < Target
    ensures exited <==> count == Target || (consumed < |ticks| && !ticks[consumed].capturing)
    ensures !exited ==> consumed == |ticks|
  {
    count := 0;
    saved := [];
    consumed := 0;
    while consumed < |ticks| && count < Target && ticks[consumed].capturing
      invariant consumed <= |ticks|
      invariant count <= Target
      invariant count == Min(Target, |AllFaces(ticks[..consumed])|)
      invariant |saved| == count && SavedAs(saved, AllFaces(ticks[..consumed]))
      invariant forall k :: 0 <= k < consumed ==> ticks[k].capturing
      invariant forall k :: 0 <= k < consumed ==> |AllFaces(ticks[..k])| < Target
    {
      var t := ticks[consumed];
      ghost var before := AllFaces(ticks[..consumed]);
      assert ticks[..consumed + 1][..consumed] == ticks[..consumed];
      assert AllFaces(ticks[..consumed + 1]) == before + (if t.ret then t.faces else []);
      if t.ret {
        count, saved := SaveFaces(count, saved, t.faces, before);
      }
      consumed := consumed + 1;
    }
    exited := count >= Target || consumed < |ticks|;
    forall i, j | 0 <= i < j < |saved|
      ensures saved[i].name != saved[j].name
    {
      SampleNameInjective(i, j);
    }
  }

  /** How a capture ended. */
  datatype Outcome =
    | Added          // 30 samples, the directory stays
    | Cancelled      // fewer samples, the directory is gone
    | RemoveFailed   // fewer samples, removing the directory raised

  /**
   * The end of `add_user` AS WRITTEN: lower the flag, keep the directory on
   * 30 samples, otherwise call `os.rmdir`, which only removes an EMPTY
   * directory and raises otherwise, leaving the partial samples on disk.
   */
  function FinishAsWritten(s: Session, user: string, saved: seq<FileEntry>): (r: (Session, Outcome))
    ensures !r.0.capturing
    ensures r.1 == Added <==> |saved| >= Target
    ensures r.1 == RemoveFailed <==> 0 < |saved| < Target
    ensures r.1 == Cancelled ==> r.0.dataset == RemoveEntry(s.dataset, user)
    ensures r.1 != Cancelled ==> r.0.dataset == SetFiles(s.dataset, user, saved)
  {
    var ds := SetFiles(s.dataset, user, saved);
    if |saved| >= Target then (Session(ds, false), Added)
    else if |saved| == 0 then (Session(RemoveEntry(s.dataset, user), false), Cancelled)
    else (Session(ds, false), RemoveFailed)
  }

  /** A cancelled capture with some samples saved leaves its directory, partial samples included. */
  lemma PartialCaptureLeftBehind(s: Session, user: string, saved: seq<FileEntry>)
    requires 0 < |saved| < Target
    requires exists k :: 0 <= k < |s.dataset| && s.dataset[k] == Entry(user, Dir([]))
    ensures FinishAsWritten(s, user, saved).1 == RemoveFailed
    ensures Entry(user, Dir(saved)) in FinishAsWritten(s, user, saved).0.dataset
  {
  }

  /**
   * The ending that leaves no partially captured identity: a capture with
   * fewer than 30 samples removes the directory together with its files.
   */
  function Finish(s: Session, user: string, saved: seq<FileEntry>): (r: (Session, Outcome))
    ensures !r.0.capturing
    ensures r.1 != RemoveFailed
    ensures r.1 == Added <==> |saved| >= Target
    ensures r.1 == Added ==> r.0.dataset == SetFiles(s.dataset, user, saved)
    ensures r.1 == Cancelled ==> !Exists(r.0.dataset, user)
    ensures forall e :: e in s.dataset && e.name != user ==> e in r.0.dataset
  {
    if |saved| >= Target then (Session(SetFiles(s.dataset, user, saved), false), Added)
    else (Session(RemoveEntry(s.dataset, user), false), Cancelled)
  }

  /**
   * `add_user` for the directory of `user` over a finite prefix of turns, as
   * written. While the loop still runs the directory holds the samples saved
   * so far. Once it exits the flag is down; with 30 samples the identity is
   * complete, with none its directory is removed, and with 1 to 29 the
   * `os.rmdir` call raises and the partial samples stay.
   */
  method AddUser(s: Session, user: string, ticks: seq<Tick>)
    returns (r: Session, outcome: Option<Outcome>, saved: seq<FileEntry>, consumed: nat, exited: bool)
    ensures consumed <= |ticks|
    ensures |saved| == Min(Target, |AllFaces(ticks[..consumed])|)
    ensures SavedAs(saved, AllFaces(ticks[..consumed]))
    ensures forall k :: 0 <= k < consumed ==> ticks[k].capturing
    ensures forall k :: 0 <= k < consumed ==> |AllFaces(ticks[..k])| < Target
    ensures exited <==> |saved| == Target || (consumed < |ticks| && !ticks[consumed].capturing)
    ensures !exited ==> consumed == |ticks|
    ensures outcome.Some? <==> exited
    ensures outcome.None? ==> r == Session(SetFiles(s.dataset, user, saved), s.capturing)
    ensures outcome.Some? ==> !r.capturing
    ensures outcome == Some(Added) <==> |saved| == Target
    ensures outcome == Some(RemoveFailed) <==> exited && 0 < |saved| < Target
    ensures outcome == Some(Cancelled) <==> exited && |saved| == 0
    ensures outcome == Some(Cancelled) ==> !Exists(r.dataset, user)
    ensures outcome.Some? && outcome != Some(Cancelled) ==> r.dataset == SetFiles(s.dataset, user, saved)
  {
    var count;
    count, saved, consumed, exited := CaptureLoop(ticks);
    if exited {
      var fin := FinishAsWritten(s, user, saved);
      r, outcome := fin.0, Some(fin.1);
    } else {
      r, outcome := Session(SetFiles(s.dataset, user, saved), s.capturing), None;
    }
  }

  /**
   * `add_user` with the ending that leaves no partially captured identity:
   * after exit the identity either has all 30 samples `0.jpg … 29.jpg` or is
   * gone from the dataset.
   */
  method AddUserIntended(s: Session, user: string, ticks: seq<Tick>)
    returns (r: Session, outcome: Option<Outcome>, saved: seq<FileEntry>, consumed: nat, exited: bool)
    ensures consumed <= |ticks|
    ensures |saved| == Min(Target, |AllFaces(ticks[..consumed])|)
    ensures SavedAs(saved, AllFaces(ticks[..consumed]))
    ensures forall k :: 0 <= k < consumed ==> ticks[k].capturing
    ensures forall k :: 0 <= k < consumed ==> |AllFaces(ticks[..k])| < Target
    ensures exited <==> |saved| == Target || (consumed < |ticks| && !ticks[consumed].capturing)
    ensures !exited ==> consumed == |ticks|
    ensures outcome.Some? <==> exited
    ensures outcome.None? ==> r == Session(SetFiles(s.dataset, user, saved), s.capturing)
    ensures outcome.Some? ==> !r.capturing && outcome != Some(RemoveFailed)
    ensures outcome == Some(Added) <==> |saved| == Target
    ensures outcome == Some(Added) ==> r.dataset == SetFiles(s.dataset, user, saved)
    ensures outcome == Some(Cancelled) ==> !Exists(r.dataset, user)
  {
    var count;
    count, saved, consumed, exited := CaptureLoop(ticks);
    if exited {
      var fin := Finish(s, user, saved);
      r, outcome := fin.0, Some(fin.1);
    } else {
      r, outcome := Session(SetFiles(s.dataset, user, saved), s.capturing), None;
    }
  }
}

=== FILE: common.dfy ===
/** Shared vocabulary: optional values, face rectangles and opaque rasters. */
module Common {

  /** A value that may be absent (Python's `None`). */
  datatype Option<T> = None | Some(value: T)

  /** An axis-aligned rectangle `(x, y, w, h)` as returned by the cascade detector. */
  datatype Rect = Rect(x: int, y: int, w: int, h: int)

  /** A grayscale raster, row by row. The model never looks inside one. */
  datatype Image = Image(rows: seq<seq<int>>)

  /** A descriptor computed from an image; opaque to the model. */
  type Feature = seq<real>

  function Min(a: int, b: int): (m: int)
    ensures m <= a && m <= b
    ensures m == a || m == b
  {
    if a <= b then a else b
  }
}

=== FILE: dataset.dfy ===
/**
 * The dataset directory: one entry per name, in listing order. A directory
 * holds files; a file holds what decoding it as grayscale yields (`None`
 * when it is not a readable image).
 */
module Dataset {
  import opened Common

  datatype FileEntry = FileEntry(name: string, image: Option<Image>)

  datatype Node = Dir(files: seq<FileEntry>) | RegularFile

  datatype Entry = Entry(name: string, node: Node)

  /** The entries of the dataset root, in the order the directory listing gives them. */
  type Listing = seq<Entry>

  /** `os.path.exists` on `dataset/<name>`: a directory or a file of that name. */
  predicate Exists(ds: Listing, name: string)
  {
    exists k :: 0 <= k < |ds| && ds[k].name == name
  }

  /** A directory never lists two entries under one name. */
  ghost predicate WellFormed(ds: Listing)
  {
    forall i, j :: 0 <= i < j < |ds| ==> ds[i].name != ds[j].name
  }

  /** Replace the files of the directory called `name`. */
  function SetFiles(ds: Listing, name: string, files: seq<FileEntry>): (r: Listing)
    ensures |r| == |ds|
    ensures forall k :: 0 <= k < |ds| ==>
              r[k] == (if ds[k].name == name && ds[k].node.Dir? then Entry(name, Dir(files)) else ds[k])
    decreases |ds|
  {
    if |ds| == 0 then []
    else
      var last := ds[|ds| - 1];
      SetFiles(ds[..|ds| - 1], name, files) +
        [if last.name == name && last.node.Dir? then Entry(name, Dir(files)) else last]
  }

  /** Remove the entry called `name`, keeping the order of the others. */
  function RemoveEntry(ds: Listing, name: string): (r: Listing)
    ensures !Exists(r, name)
    ensures forall e :: e in r <==> e in ds && e.name != name
    decreases |ds|
  {
    if |ds| == 0 then []
    else
      var rest := RemoveEntry(ds[..|ds| - 1], name);
      if ds[|ds| - 1].name == name then rest else rest + [ds[|ds| - 1]]
  }

  /** The number a string of decimal digits denotes, most significant first. */
  function Value(s: string): nat
    decreases |s|
  {
    if |s| == 0 then 0
    else
      var c := s[|s| - 1];
      Value(s[..|s| - 1]) * 10 + (if '0' <= c <= '9' then c as int - 48 else 0)
  }

  /**
   * Decimal digits of `n`, as `str(n)` writes them: the numeral that reads
   * back as `n`, without a leading zero.
   */
  function Digits(n: nat): (s: string)
    ensures |s| >= 1
    ensures n < 10 <==> |s| == 1
    ensures forall k :: 0 <= k < |s| ==> '0' <= s[k] <= '9'
    ensures Value(s) == n
    ensures n >= 10 ==> s[0] != '0'
    decreases n
  {
    if n < 10 then [(48 + n) as char]
    else
      var s := Digits(n / 10) + [(48 + n % 10) as char];
      assert s[..|s| - 1] == Digits(n / 10);
      s
  }

  /** Different counters print differently: reading a numeral back recovers its counter. */
  lemma DigitsInjective(a: nat, b: nat)
    requires Digits(a) == Digits(b)
    ensures a == b
  {
    assert Value(Digits(a)) == a && Value(Digits(b)) == b;
  }

  /** Name of the `i`-th saved face crop: `f"{i}.jpg"`. */
  function SampleName(i: nat): (name: string)
  {
    Digits(i) + ".jpg"
  }

  /** Distinct sample indices give distinct file names. */
  lemma SampleNameInjective(a: nat, b: nat)
    ensures SampleName(a) == SampleName(b) <==> a == b
  {
    if SampleName(a) == SampleName(b) {
      var da, db := Digits(a), Digits(b);
      assert |da| == |db|;
      assert SampleName(a)[..|da|] == da;
      assert SampleName(b)[..|db|] == db;
      DigitsInjective(a, b);
    }
  }
}

=== FILE: decision.dfy ===
/**
 * The confidence rule applied to one face: the class with the highest
 * probability names the face only when that probability is strictly above 0.8.
 */
module Decision {

  /**
   * Probability a class must strictly exceed to be accepted: the literal
   * `0.8`, which in the program is the double nearest 0.8.
   */
  const Threshold: real := 0.8

  /** Name shown and sent for a face no class is confident about. */
  const UnknownName: string := "Inconnu"

  /** Index of the FIRST maximal entry, as `np.argmax` returns it. */
  function ArgMax(p: seq<real>): (i: nat)
    requires |p| > 0
    ensures i < |p|
    ensures forall j :: 0 <= j < |p| ==> p[j] <= p[i]
    ensures forall j :: 0 <= j < i ==> p[j] < p[i]
  {
    if |p| == 1 then 0
    else
      var k := ArgMax(p[..|p| - 1]);
      if p[|p| - 1] > p[k] then |p| - 1 else k
  }

  /** Some class is strictly more probable than the threshold. */
  predicate Confident(p: seq<real>)
  {
    exists j :: 0 <= j < |p| && p[j] > Threshold
  }

  /** The outcome of classifying one face. */
  datatype Verdict = Recognized(name: string) | Unknown
  {
    /** The string the detection loop displays and sends for this verdict. */
    function Name(): string
    {
      if Recognized? then name else UnknownName
    }
  }

  /**
   * Classify one face from the probability vector of the classifier; column
   * `i` of `proba` belongs to `classes[i]` (the label encoder's classes).
   */
  function Decide(proba: seq<real>, classes: seq<string>): (v: Verdict)
    requires |proba| > 0 && |proba| == |classes|
    ensures v.Recognized? <==> Confident(proba)
    ensures v.Recognized? ==> v.name == classes[ArgMax(proba)]
    ensures (forall j :: 0 <= j < |proba| ==> proba[j] <= Threshold) ==> v.Name() == UnknownName
  {
    var best := ArgMax(proba);
    if proba[best] > Threshold then Recognized(classes[best]) else Unknown
  }

  /** A maximum of exactly 0.8 is not enough: the comparison is strict. */
  lemma ExactlyThresholdIsUnknown(proba: seq<real>, classes: seq<string>)
    requires |proba| > 0 && |proba| == |classes|
    requires proba[ArgMax(proba)] == Threshold
    ensures Decide(proba, classes) == Unknown
  {
  }
}

=== FILE: detection.dfy ===
/**
 * The detection loop: per frame, label every detected face, keep the label
 * of the last one, and hand that name to the notifier once.
 */
module Detection {
  import opened Common
  import Decision
  import Notifier

  /** Sentinel name for a frame without any face. */
  const NoFaceName: string := "Face the camera"

  /** An OpenCV colour, channels in blue-green-red order. */
  datatype Color = Bgr(b: int, g: int, r: int)

  const Green: Color := Bgr(0, 255, 0)
  const Red: Color := Bgr(0, 0, 255)

  /**
   * One face found by the cascade detector, with the class probabilities the
   * classifier gave its crop (cropping, feature extraction and the classifier
   * are outside the model).
   */
  datatype Face = Face(region: Rect, proba: seq<real>)

  /** What is drawn for one face: its box, its name and their colour. */
  datatype Label = Label(region: Rect, name: string, color: Color)

  /** Every face has one probability per class of the label encoder. */
  predicate Classifiable(faces: seq<Face>, classes: seq<string>)
  {
    forall k :: 0 <= k < |faces| ==> |faces[k].proba| > 0 && |faces[k].proba| == |classes|
  }

  /** Label of one face: green with the class name when confident, red "Inconnu" otherwise. */
  function FaceLabel(f: Face, classes: seq<string>): (l: Label)
    requires |f.proba| > 0 && |f.proba| == |classes|
    ensures l.region == f.region
    ensures l.color == Green <==> Decision.Confident(f.proba)
    ensures l.color == Green || l.color == Red
    ensures l.color == Green ==> l.name == classes[Decision.ArgMax(f.proba)]
    ensures l.color == Red ==> l.name == Decision.UnknownName
  {
    var v := Decision.Decide(f.proba, classes);
    Label(f.region, v.Name(), if v.Recognized? then Green else Red)
  }

  /** The name a frame hands to the notifier. */
  function FrameName(faces: seq<Face>, classes: seq<string>): (name: string)
    requires Classifiable(faces, classes)
  {
    if |faces| == 0 then NoFaceName else FaceLabel(faces[|faces| - 1], classes).name
  }

  /**
   * Label one frame. Each face overwrites the frame's name and colour, so the
   * last face wins; with no face the name is "Face the camera" in red.
   */
  method LabelFrame(faces: seq<Face>, classes: seq<string>) returns (name: string, color: Color, drawn: seq<Label>)
    requires Classifiable(faces, classes)
    ensures |faces| == 0 ==> name == NoFaceName && color == Red && drawn == []
    ensures |faces| > 0 ==> name == FaceLabel(faces[|faces| - 1], classes).name
    ensures |faces| > 0 ==> color == FaceLabel(faces[|faces| - 1], classes).color
    ensures color == Green <==> |faces| > 0 && Decision.Confident(faces[|faces| - 1].proba)
    ensures |drawn| == |faces|
    ensures forall k :: 0 <= k < |faces| ==> drawn[k] == FaceLabel(faces[k], classes)
    ensures name == FrameName(faces, classes)
  {
    if |faces| == 0 {
      name := NoFaceName;
      color := Red;
      drawn := [];
    } else {
      name := Decision.UnknownName;
      color := Red;
      drawn := [];
      var k := 0;
      while k < |faces|
        invariant 0 <= k <= |faces|
        invariant |drawn| == k
        invariant forall i :: 0 <= i < k ==> drawn[i] == FaceLabel(faces[i], classes)
        invariant k > 0 ==> name == drawn[k - 1].name && color == drawn[k - 1].color
      {
        var l := FaceLabel(faces[k], classes);
        name := l.name;
        color := l.color;
        drawn := drawn + [l];
        k := k + 1;
      }
    }
  }

  /**
   * One turn of the camera loop: whether a frame was read, the faces found in
   * it, the clock reading when the notifier runs, whether the serial write
   * succeeds, and the code `cv2.waitKey` returned.
   */
  datatype FrameInput = FrameInput(ret: bool, faces: seq<Face>, now: real, writeOk: bool, key: int)

  /** Every frame's faces can be classified against `classes`. */
  predicate AllClassifiable(frames: seq<FrameInput>, classes: seq<string>)
  {
    forall k :: 0 <= k < |frames| ==> Classifiable(frames[k].faces, classes)
  }

  /** The notifier calls made for the first `n` frames, one per frame. */
  function CallsUpTo(frames: seq<FrameInput>, classes: seq<string>, n: nat): (calls: seq<Notifier.Call>)
    requires n <= |frames| && AllClassifiable(frames, classes)
    ensures |calls| == n
  {
    if n == 0 then []
    else
      var f := frames[n - 1];
      CallsUpTo(frames, classes, n - 1) + [Notifier.Call(FrameName(f.faces, classes), f.now, f.writeOk)]
  }

  /** Frame `k` makes the `k`-th notifier call, with the name the frame resolved to. */
  lemma {:induction false} CallsUpToPointwise(frames: seq<FrameInput>, classes: seq<string>, n: nat)
    requires n <= |frames| && AllClassifiable(frames, classes)
    ensures forall k :: 0 <= k < n ==>
              Classifiable(frames[k].faces, classes) &&
              CallsUpTo(frames, classes, n)[k] ==
              Notifier.Call(FrameName(frames[k].faces, classes), frames[k].now, frames[k].writeOk)
  {
    if n > 0 {
      CallsUpToPointwise(frames, classes, n - 1);
    }
  }

  /** `waitKey(1) & 0xFF == ord('q')`: Dafny's `%` agrees with Python's mask, negative codes included. */
  predicate QuitKey(key: int)
  {
    key % 256 == 'q' as int
  }

  /**
   * The body of the camera loop for a frame that was read: label the frame,
   * then call the notifier once with the frame's name.
   */
  method ProcessFrame(startTime: real, channel: Notifier.Channel, classes: seq<string>, frames: seq<FrameInput>,
                      n: nat, calls: seq<Notifier.Call>, trace: Notifier.Trace)
    returns (calls': seq<Notifier.Call>, trace': Notifier.Trace)
    requires n < |frames| && AllClassifiable(frames, classes)
    requires calls == CallsUpTo(frames, classes, n)
    requires trace == Notifier.Replay(Notifier.State(startTime), calls, channel)
    ensures calls' == CallsUpTo(frames, classes, n + 1)
    ensures trace' == Notifier.Replay(Notifier.State(startTime), calls', channel)
  {
    var f := frames[n];
    var name, color, drawn := LabelFrame(f.faces, classes);
    var call := Notifier.Call(name, f.now, f.writeOk);
    trace' := Notifier.ReplayStep(Notifier.State(startTime), calls, call, channel, trace);
    calls' := calls + [call];
  }

  /**
   * The `while True` loop over a finite prefix of camera turns. A turn whose
   * read fails ends the loop before anything is processed; a turn whose key is
   * 'q' ends it after the frame was processed. `stopped` is false when the
   * inputs ran out with the loop still running. Every processed frame makes
   * exactly one notifier call, and the notifier is the replay of those calls.
   */
  method RunDetection(startTime: real, channel: Notifier.Channel, classes: seq<string>, frames: seq<FrameInput>)
    returns (processed: nat, stopped: bool, calls: seq<Notifier.Call>, trace: Notifier.Trace)
    requires AllClassifiable(frames, classes)
    ensures processed <= |frames|
    ensures forall k :: 0 <= k < processed ==> frames[k].ret
    ensures forall k :: 0 <= k < processed - 1 ==> !QuitKey(frames[k].key)
    ensures stopped <==>
              (processed < |frames| && !frames[processed].ret) ||
              (processed > 0 && QuitKey(frames[processed - 1].key))
    ensures !stopped ==> processed == |frames|
    ensures calls == CallsUpTo(frames, classes, processed)
    ensures trace == Notifier.Replay(Notifier.State(startTime), calls, channel)
  {
    processed := 0;
    calls := [];
    trace := Notifier.Replay(Notifier.State(startTime), calls, channel);
    while processed < |frames| && frames[processed].ret && !(processed > 0 && QuitKey(frames[processed - 1].key))
      invariant processed <= |frames|
      invariant calls == CallsUpTo(frames, classes, processed)
      invariant trace == Notifier.Replay(Notifier.State(startTime), calls, channel)
      invariant forall k :: 0 <= k < processed ==> frames[k].ret
      invariant forall k :: 0 <= k < processed - 1 ==> !QuitKey(frames[k].key)
    {
      calls, trace := ProcessFrame(startTime, channel, classes, frames, processed, calls, trace);
      processed := processed + 1;
    }
    stopped := processed < |frames| || (processed > 0 && QuitKey(frames[processed - 1].key));
  }
}

=== FILE: label_encoder.dfy ===
/**
 * scikit-learn's `LabelEncoder` as the training pipeline uses it:
 * `fit_transform` sorts the distinct labels into `classes` and replaces every
 * label by its position there; `inverse_transform` maps a position back.
 */
module LabelEncoder {

  /** Python's `<` on `str`: lexicographic by code point, a proper prefix first. */
  predicate Less(a: string, b: string)
    decreases |a|
  {
    if |a| == 0 then |b| > 0
    else if |b| == 0 then false
    else if a[0] == b[0] then Less(a[1..], b[1..])
    else a[0] < b[0]
  }

  lemma {:induction false} LessIrreflexive(a: string)
    ensures !Less(a, a)
    decreases |a|
  {
    if |a| > 0 {
      LessIrreflexive(a[1..]);
    }
  }

  lemma {:induction false} LessTransitive(a: string, b: string, c: string)
    requires Less(a, b) && Less(b, c)
    ensures Less(a, c)
    decreases |a|
  {
    if |a| > 0 && a[0] == b[0] && b[0] == c[0] {
      LessTransitive(a[1..], b[1..], c[1..]);
    }
  }

  lemma {:induction false} LessTotal(a: string, b: string)
    requires a != b
    ensures Less(a, b) || Less(b, a)
    decreases |a|
  {
    if |a| > 0 && |b| > 0 && a[0] == b[0] {
      assert a == [a[0]] + a[1..] && b == [b[0]] + b[1..];
      LessTotal(a[1..], b[1..]);
    }
  }

  /** Strictly increasing, hence free of duplicates. */
  ghost predicate StrictlySorted(s: seq<string>)
  {
    forall i, j :: 0 <= i < j < |s| ==> Less(s[i], s[j])
  }

  ghost predicate Distinct(s: seq<string>)
  {
    forall i, j :: 0 <= i < j < |s| ==> s[i] != s[j]
  }

  lemma SortedIsDistinct(s: seq<string>)
    requires StrictlySorted(s)
    ensures Distinct(s)
  {
    forall i, j | 0 <= i < j < |s|
      ensures s[i] != s[j]
    {
      LessIrreflexive(s[i]);
    }
  }

  /** Insert `x` into a sorted list of distinct labels, unless it is already there. */
  function Insert(s: seq<string>, x: string): (r: seq<string>)
    ensures forall l :: l in r <==> l in s || l == x
    decreases |s|
  {
    if |s| == 0 then [x]
    else if x == s[0] then s
    else if Less(x, s[0]) then [x] + s
    else [s[0]] + Insert(s[1..], x)
  }

  lemma {:induction false} InsertSorted(s: seq<string>, x: string)
    requires StrictlySorted(s)
    ensures StrictlySorted(Insert(s, x))
    decreases |s|
  {
    if |s| == 0 || x == s[0] {
    } else if Less(x, s[0]) {
      var r := [x] + s;
      forall i, j | 0 <= i < j < |r|
        ensures Less(r[i], r[j])
      {
        if i == 0 && j > 1 {
          LessTransitive(x, s[0], s[j - 1]);
        }
      }
    } else {
      LessTotal(x, s[0]);
      assert StrictlySorted(s[1..]);
      InsertSorted(s[1..], x);
      var rest := Insert(s[1..], x);
      var r := [s[0]] + rest;
      forall j | 0 <= j < |rest|
        ensures Less(s[0], rest[j])
      {
        assert rest[j] in s[1..] || rest[j] == x;
      }
    }
  }

  /** `classes_`: the distinct labels of `y` in increasing order. */
  function Classes(y: seq<string>): (c: seq<string>)
    ensures forall l :: l in c <==> l in y
    decreases |y|
  {
    if |y| == 0 then []
    else Insert(Classes(y[..|y| - 1]), y[|y| - 1])
  }

  lemma {:induction false} ClassesSorted(y: seq<string>)
    ensures StrictlySorted(Classes(y))
    decreases |y|
  {
    if |y| > 0 {
      ClassesSorted(y[..|y| - 1]);
      InsertSorted(Classes(y[..|y| - 1]), y[|y| - 1]);
    }
  }

  /** A list without duplicates is as long as the set of its elements is large. */
  lemma {:induction false} DistinctCardinality(s: seq<string>)
    requires Distinct(s)
    ensures |set l | l in s| == |s|
    decreases |s|
  {
    if |s| > 0 {
      var init := s[..|s| - 1];
      assert Distinct(init);
      DistinctCardinality(init);
      assert (set l | l in s) == (set l | l in init) + {s[|s| - 1]};
      assert s[|s| - 1] !in init;
    }
  }

  /** Position of a known label in `classes`. */
  function IndexOf(c: seq<string>, l: string): (i: nat)
    requires l in c
    ensures i < |c| && c[i] == l
    ensures forall j :: 0 <= j < i ==> c[j] != l
  {
    if c[0] == l then 0 else 1 + IndexOf(c[1..], l)
  }

  /** `transform`: replace every label by its position in `classes`. */
  function Transform(c: seq<string>, y: seq<string>): (codes: seq<nat>)
    requires forall k :: 0 <= k < |y| ==> y[k] in c
    ensures |codes| == |y|
    ensures forall k :: 0 <= k < |y| ==> codes[k] < |c| && c[codes[k]] == y[k]
    decreases |y|
  {
    if |y| == 0 then []
    else Transform(c, y[..|y| - 1]) + [IndexOf(c, y[|y| - 1])]
  }

  /** `inverse_transform` of one code. */
  function InverseTransform(c: seq<string>, code: nat): (l: string)
    requires code < |c|
    ensures l in c
  {
    c[code]
  }

  /** The fitted encoder: its classes and the encoded labels. */
  datatype Encoding = Encoding(classes: seq<string>, codes: seq<nat>)

  /**
   * `fit_transform`: the classes are the sorted distinct labels, there are as
   * many as `y` has distinct labels, and decoding any code gives back its label.
   */
  function FitTransform(y: seq<string>): (e: Encoding)
    ensures StrictlySorted(e.classes)
    ensures forall l :: l in e.classes <==> l in y
    ensures |e.classes| == |set l | l in y|
    ensures |e.codes| == |y|
    ensures forall k :: 0 <= k < |y| ==>
              e.codes[k] < |e.classes| && InverseTransform(e.classes, e.codes[k]) == y[k]
  {
    var c := Classes(y);
    ClassesSorted(y);
    SortedIsDistinct(c);
    DistinctCardinality(c);
    assert (set l | l in c) == (set l | l in y);
    Encoding(c, Transform(c, y))
  }

  /** In a duplicate-free list a value has one position. */
  lemma DistinctPosition(c: seq<string>, a: nat, b: nat)
    requires Distinct(c) && a < |c| && b < |c| && c[a] == c[b]
    ensures a == b
  {
  }

  /** Equal labels get equal codes and distinct labels distinct codes. */
  lemma EncodingInjective(y: seq<string>, i: nat, j: nat)
    requires i < |y| && j < |y|
    ensures FitTransform(y).codes[i] == FitTransform(y).codes[j] <==> y[i] == y[j]
  {
    var e := FitTransform(y);
    SortedIsDistinct(e.classes);
    if y[i] == y[j] {
      DistinctPosition(e.classes, e.codes[i], e.codes[j]);
    }
  }

  /** Every code in `[0, N)` is the code of some label. */
  lemma EncodingSurjective(y: seq<string>)
    ensures forall code :: 0 <= code < |FitTransform(y).classes| ==> code in FitTransform(y).codes
  {
    var e := FitTransform(y);
    SortedIsDistinct(e.classes);
    forall code | 0 <= code < |e.classes|
      ensures code in e.codes
    {
      var l := e.classes[code];
      assert l in y;
      var k :| 0 <= k < |y| && y[k] == l;
      DistinctPosition(e.classes, e.codes[k], code);
    }
  }

  /** Decoding then encoding a code gives the code back, because classes are distinct. */
  lemma InverseRoundTrip(c: seq<string>, code: nat)
    requires StrictlySorted(c) && code < |c|
    ensures IndexOf(c, InverseTransform(c, code)) == code
  {
    SortedIsDistinct(c);
  }
}

=== FILE: notifier.dfy ===
/**
 * The rate-limited serial notifier: one timestamp of state, a 5-second
 * cooldown, and a best-effort write of `message + "\n"` that never raises.
 * Time is the value the caller reads from the clock, passed in as `now`.
 */
module Notifier {

  /** Seconds that must elapse between two attempted sends. */
  const Cooldown: real := 5.0

  /** The notifier's single field: when a send was last attempted. */
  datatype State = State(lastSent: real)

  /** Whether the serial port was opened at start-up (`ser` is truthy). */
  datatype Channel = Absent | Open

  /** What one call did on the serial channel. */
  datatype Event =
    | Suppressed                  // still inside the cooldown window
    | NoChannel(line: string)     // cooldown elapsed, but there is no port
    | WriteFailed(line: string)   // cooldown elapsed, write or flush raised
    | Delivered(line: string)     // cooldown elapsed, the line went out
  {
    predicate Attempted()
    {
      !Suppressed?
    }
  }

  /** The result of one call: the new state and what happened. */
  datatype Step = Step(state: State, event: Event)

  /** One call of the notifier: the message, the clock reading, whether the write succeeds. */
  datatype Call = Call(message: string, now: real, writeOk: bool)

  /**
   * One call. The timestamp moves to `now` whenever the cooldown has elapsed,
   * BEFORE the write is tried, so an absent port or a failing write still
   * consumes the cooldown.
   */
  function Notify(s: State, message: string, now: real, channel: Channel, writeOk: bool): (r: Step)
    ensures r.event.Attempted() <==> now - s.lastSent >= Cooldown
    ensures r.event.Attempted() ==> r.state.lastSent == now && r.event.line == message + "\n"
    ensures !r.event.Attempted() ==> r.state == s
    ensures r.event.Delivered? <==> now - s.lastSent >= Cooldown && channel.Open? && writeOk
    ensures r.event.NoChannel? <==> now - s.lastSent >= Cooldown && channel.Absent?
  {
    if now - s.lastSent >= Cooldown then
      var line := message + "\n";
      var event :=
        if channel.Absent? then NoChannel(line)
        else if writeOk then Delivered(line)
        else WriteFailed(line);
      Step(State(now), event)
    else
      Step(s, Suppressed)
  }

  /** The notifier after a sequence of calls, with every event and the times of attempted sends. */
  datatype Trace = Trace(state: State, events: seq<Event>, sendTimes: seq<real>)

  function Replay(s: State, calls: seq<Call>, channel: Channel): (t: Trace)
    ensures |t.events| == |calls|
    decreases |calls|
  {
    if |calls| == 0 then Trace(s, [], [])
    else
      var prev := Replay(s, calls[..|calls| - 1], channel);
      var c := calls[|calls| - 1];
      var step := Notify(prev.state, c.message, c.now, channel, c.writeOk);
      Trace(step.state, prev.events + [step.event],
            prev.sendTimes + (if step.event.Attempted() then [c.now] else []))
  }

  /** Extend a replay by one call, the way the detection loop calls the notifier once per frame. */
  function ReplayStep(s: State, calls: seq<Call>, c: Call, channel: Channel, t: Trace): (t': Trace)
    requires t == Replay(s, calls, channel)
    ensures t' == Replay(s, calls + [c], channel)
  {
    assert (calls + [c])[..|calls|] == calls;
    var step := Notify(t.state, c.message, c.now, channel, c.writeOk);
    Trace(step.state, t.events + [step.event],
          t.sendTimes + (if step.event.Attempted() then [c.now] else []))
  }

  /** Consecutive entries are at least one cooldown apart. */
  ghost predicate Spaced(times: seq<real>)
  {
    forall i :: 0 <= i < |times| - 1 ==> times[i] + Cooldown <= times[i + 1]
  }

  /**
   * Whatever the clock does, attempted sends are at least 5 s apart, the first
   * one comes at least 5 s after the start-up timestamp, and the state holds
   * the time of the latest attempt.
   */
  lemma {:induction false} SendsSpaced(s: State, calls: seq<Call>, channel: Channel)
    ensures Spaced(Replay(s, calls, channel).sendTimes)
    ensures |Replay(s, calls, channel).sendTimes| > 0 ==>
              Replay(s, calls, channel).sendTimes[0] >= s.lastSent + Cooldown
    ensures Replay(s, calls, channel).state.lastSent ==
              (var ts := Replay(s, calls, channel).sendTimes;
               if |ts| == 0 then s.lastSent else ts[|ts| - 1])
    decreases |calls|
  {
    if |calls| > 0 {
      var init := calls[..|calls| - 1];
      var c := calls[|calls| - 1];
      var prev := Replay(s, init, channel);
      SendsSpaced(s, init, channel);
      var step := Notify(prev.state, c.message, c.now, channel, c.writeOk);
      var t := Replay(s, calls, channel);
      assert t.state == step.state;
      if step.event.Attempted() {
        assert t.sendTimes == prev.sendTimes + [c.now];
        SpacedAppend(prev.sendTimes, c.now);
      } else {
        assert t.sendTimes == prev.sendTimes;
      }
    }
  }

  lemma SpacedAppend(times: seq<real>, t: real)
    requires Spaced(times)
    requires |times| > 0 ==> times[|times| - 1] + Cooldown <= t
    ensures Spaced(times + [t])
  {
  }

  /** A spaced sequence spans at least one cooldown per gap. */
  lemma {:induction false} SpacedSpan(times: seq<real>)
    requires |times| > 0 && Spaced(times)
    ensures times[|times| - 1] - times[0] >= Cooldown * (|times| - 1) as real
    decreases |times|
  {
    if |times| > 1 {
      var init := times[..|times| - 1];
      assert Spaced(init);
      SpacedSpan(init);
    }
  }

  /**
   * Rate limit: however the calls are timed, the attempted sends that fall in
   * a window of length `w` number at most `floor(w / 5) + 1`.
   */
  lemma WindowBound(s: State, calls: seq<Call>, channel: Channel, from: real, w: real)
    requires w >= 0.0
    ensures var ts := Replay(s, calls, channel).sendTimes;
            forall i, j :: 0 <= i <= j < |ts| && from <= ts[i] && ts[j] <= from + w ==>
              j - i + 1 <= (w / Cooldown).Floor + 1
  {
    var ts := Replay(s, calls, channel).sendTimes;
    SendsSpaced(s, calls, channel);
    forall i, j | 0 <= i <= j < |ts| && from <= ts[i] && ts[j] <= from + w
      ensures j - i + 1 <= (w / Cooldown).Floor + 1
    {
      var window := ts[i..j + 1];
      assert Spaced(window);
      SpacedSpan(window);
      assert Cooldown * (j - i) as real <= w;
      assert (j - i) as real <= w / Cooldown;
    }
  }

  /**
   * Start-up quirk: with the timestamp initialised at start-up, calls at 0 s
   * and 3 s send nothing and the first send happens at 5.1 s.
   */
  lemma FirstSendDelayed()
    ensures Replay(State(0.0),
                   [Call("alice", 0.0, true), Call("alice", 3.0, true), Call("alice", 5.1, true)],
                   Open).sendTimes == [5.1]
  {
    var calls := [Call("alice", 0.0, true), Call("alice", 3.0, true), Call("alice", 5.1, true)];
    assert calls[..2][..1] == calls[..1];
    assert calls[..1][..0] == [];
    assert Replay(State(0.0), calls[..1], Open) == Trace(State(0.0), [Suppressed], []);
    assert Replay(State(0.0), calls[..2], Open) == Trace(State(0.0), [Suppressed, Suppressed], []);
  }
}

=== FILE: training.dfy ===
/**
 * Training: collect one (feature, label) pair per readable image in each
 * identity directory, refuse an empty collection, encode the labels and
 * store the fitted model with its encoder as one artifact.
 */
module Training {
  import opened Common
  import opened Dataset
  import LabelEncoder

  /** A readable image and the name of the directory it was found in. */
  datatype Sample = Sample(image: Image, owner: string)

  /** The readable images of one directory's files, labelled `owner`. */
  function DirSamples(owner: string, files: seq<FileEntry>): (samples: seq<Sample>)
    decreases |files|
  {
    if |files| == 0 then []
    else
      var f := files[|files| - 1];
      DirSamples(owner, files[..|files| - 1]) +
        (if f.image.Some? then [Sample(f.image.value, owner)] else [])
  }

  /** Every sample of the dataset, in listing order; plain files in the root are skipped. */
  function Samples(ds: Listing): (samples: seq<Sample>)
    decreases |ds|
  {
    if |ds| == 0 then []
    else
      var e := ds[|ds| - 1];
      Samples(ds[..|ds| - 1]) + (if e.node.Dir? then DirSamples(e.name, e.node.files) else [])
  }

  /** `s` is the decoded image of some file of the directory `owner`. */
  ghost predicate FromDir(owner: string, files: seq<FileEntry>, s: Sample)
  {
    s.owner == owner && exists k :: 0 <= k < |files| && files[k].image == Some(s.image)
  }

  lemma {:induction false} DirSamplesExact(owner: string, files: seq<FileEntry>)
    ensures forall s :: s in DirSamples(owner, files) <==> FromDir(owner, files, s)
    decreases |files|
  {
    if |files| > 0 {
      var init := files[..|files| - 1];
      DirSamplesExact(owner, init);
      forall s
        ensures s in DirSamples(owner, files) <==> FromDir(owner, files, s)
      {
        if FromDir(owner, init, s) {
          var k :| 0 <= k < |init| && init[k].image == Some(s.image);
          assert files[k] == init[k];
        }
        if FromDir(owner, files, s) && !FromDir(owner, init, s) {
          assert files[|files| - 1].image == Some(s.image);
        }
      }
    }
  }

  /** A readable image in a directory of the dataset. */
  ghost predicate InDataset(ds: Listing, s: Sample)
  {
    exists i :: 0 <= i < |ds| && ds[i].node.Dir? && FromDir(ds[i].name, ds[i].node.files, s)
  }

  /**
   * The collected samples are exactly the readable images of the dataset's
   * directories, each labelled with its directory's name: nothing from a
   * plain file, nothing unreadable, nothing readable missed.
   */
  lemma {:induction false} SamplesExact(ds: Listing)
    ensures forall s :: s in Samples(ds) <==> InDataset(ds, s)
    decreases |ds|
  {
    if |ds| > 0 {
      var init := ds[..|ds| - 1];
      var e := ds[|ds| - 1];
      SamplesExact(init);
      if e.node.Dir? {
        DirSamplesExact(e.name, e.node.files);
      }
      forall s
        ensures s in Samples(ds) <==> InDataset(ds, s)
      {
        if InDataset(init, s) {
          var i :| 0 <= i < |init| && init[i].node.Dir? && FromDir(init[i].name, init[i].node.files, s);
          assert ds[i] == init[i];
        }
        if InDataset(ds, s) && !InDataset(init, s) {
          var i :| 0 <= i < |ds| && ds[i].node.Dir? && FromDir(ds[i].name, ds[i].node.files, s);
          assert i == |ds| - 1;
        }
      }
    }
  }

  /** Nothing is collected exactly when no directory holds a readable image. */
  lemma NoSamplesIffNoReadableImage(ds: Listing)
    ensures |Samples(ds)| == 0 <==>
              forall i, k :: 0 <= i < |ds| && ds[i].node.Dir? && 0 <= k < |ds[i].node.files| ==>
                ds[i].node.files[k].image.None?
  {
    SamplesExact(ds);
    if |Samples(ds)| > 0 {
      var s := Samples(ds)[0];
      assert s in Samples(ds);
    } else {
      forall i, k | 0 <= i < |ds| && ds[i].node.Dir? && 0 <= k < |ds[i].node.files|
        ensures ds[i].node.files[k].image.None?
      {
        if ds[i].node.files[k].image.Some? {
          var s := Sample(ds[i].node.files[k].image.value, ds[i].name);
          assert FromDir(ds[i].name, ds[i].node.files, s);
          assert InDataset(ds, s);
        }
      }
    }
  }

  /** The positions of the readable files of a directory, in increasing order, each once. */
  function ReadableIndices(files: seq<FileEntry>): (idx: seq<nat>)
    ensures forall m :: 0 <= m < |idx| ==> idx[m] < |files| && files[idx[m]].image.Some?
    ensures forall m, n :: 0 <= m < n < |idx| ==> idx[m] < idx[n]
    ensures forall k :: 0 <= k < |files| && files[k].image.Some? ==> k in idx
    decreases |files|
  {
    if |files| == 0 then []
    else
      var init := ReadableIndices(files[..|files| - 1]);
      init + (if files[|files| - 1].image.Some? then [|files| - 1] else [])
  }

  /**
   * Multiplicity: a directory yields exactly one sample per readable file, in
   * file order, so two equal crops give two samples and nothing is repeated.
   */
  lemma {:induction false} DirSamplesIndexed(owner: string, files: seq<FileEntry>)
    ensures var idx := ReadableIndices(files);
            && |DirSamples(owner, files)| == |idx|
            && forall m :: 0 <= m < |idx| ==>
                 DirSamples(owner, files)[m] == Sample(files[idx[m]].image.value, owner)
    decreases |files|
  {
    if |files| > 0 {
      var init := files[..|files| - 1];
      DirSamplesIndexed(owner, init);
      var idx0 := ReadableIndices(init);
      forall m | 0 <= m < |idx0|
        ensures files[idx0[m]] == init[idx0[m]]
      {
      }
    }
  }

  /** A readable file of a directory of the listing: directory `dir`, file `file`. */
  datatype Position = Position(dir: nat, file: nat)

  ghost predicate Readable(ds: Listing, p: Position)
  {
    && p.dir < |ds| && ds[p.dir].node.Dir?
    && p.file < |ds[p.dir].node.files| && ds[p.dir].node.files[p.file].image.Some?
  }

  /** Listing order: by directory, then by file. */
  predicate Before(p: Position, q: Position)
  {
    p.dir < q.dir || (p.dir == q.dir && p.file < q.file)
  }

  /** The readable files of the whole listing, in listing order. */
  function ReadablePositions(ds: Listing): (ps: seq<Position>)
    decreases |ds|
  {
    if |ds| == 0 then []
    else
      var e := ds[|ds| - 1];
      ReadablePositions(ds[..|ds| - 1]) +
        (if e.node.Dir? then DirPositions(|ds| - 1, ReadableIndices(e.node.files)) else [])
  }

  /** Every listed position is a readable file of the listing. */
  lemma {:induction false} ReadablePositionsReadable(ds: Listing)
    ensures forall m :: 0 <= m < |ReadablePositions(ds)| ==> Readable(ds, ReadablePositions(ds)[m])
    decreases |ds|
  {
    if |ds| > 0 {
      var init := ds[..|ds| - 1];
      ReadablePositionsReadable(init);
      var prev := ReadablePositions(init);
      forall m | 0 <= m < |prev|
        ensures Readable(ds, prev[m])
      {
        ReadableInit(ds, prev[m]);
      }
    }
  }

  /** The listed positions are in strictly increasing listing order, so none is listed twice. */
  lemma {:induction false} ReadablePositionsSorted(ds: Listing)
    ensures forall m, n :: 0 <= m < n < |ReadablePositions(ds)| ==>
              Before(ReadablePositions(ds)[m], ReadablePositions(ds)[n])
    decreases |ds|
  {
    if |ds| > 0 {
      var init := ds[..|ds| - 1];
      var e := ds[|ds| - 1];
      ReadablePositionsSorted(init);
      ReadablePositionsReadable(init);
      var prev := ReadablePositions(init);
      var here := if e.node.Dir? then DirPositions(|ds| - 1, ReadableIndices(e.node.files)) else [];
      var ps := prev + here;
      assert ReadablePositions(ds) == ps;
      forall m, n | 0 <= m < n < |ps|
        ensures Before(ps[m], ps[n])
      {
        if n < |prev| {
          assert ps[m] == prev[m] && ps[n] == prev[n];
          assert Before(prev[m], prev[n]);
        } else if m < |prev| {
          assert Readable(init, prev[m]);
          assert e.node.Dir?;
          var idx := ReadableIndices(e.node.files);
          assert ps[m] == prev[m] && ps[n] == Position(|ds| - 1, idx[n - |prev|]);
        } else {
          assert e.node.Dir?;
          var idx := ReadableIndices(e.node.files);
          assert ps[m] == Position(|ds| - 1, idx[m - |prev|]);
          assert ps[n] == Position(|ds| - 1, idx[n - |prev|]);
        }
      }
    }
  }

  /** Every readable file of the listing is listed. */
  lemma {:induction false} ReadablePositionsComplete(ds: Listing)
    ensures forall p :: Readable(ds, p) ==> p in ReadablePositions(ds)
    decreases |ds|
  {
    if |ds| > 0 {
      var init := ds[..|ds| - 1];
      var e := ds[|ds| - 1];
      ReadablePositionsComplete(init);
      var prev := ReadablePositions(init);
      var here := if e.node.Dir? then DirPositions(|ds| - 1, ReadableIndices(e.node.files)) else [];
      assert ReadablePositions(ds) == prev + here;
      forall p | Readable(ds, p)
        ensures p in prev + here
      {
        if p.dir < |ds| - 1 {
          ReadableInit(ds, p);
          assert p in prev;
        } else {
          var idx := ReadableIndices(e.node.files);
          assert p.file in idx;
          var m :| 0 <= m < |idx| && idx[m] == p.file;
          assert here[m] == p;
        }
      }
    }
  }

  /** A position before the last directory is readable in the listing exactly when it is in its prefix. */
  lemma ReadableInit(ds: Listing, p: Position)
    requires 0 < |ds| && p.dir < |ds| - 1
    ensures Readable(ds, p) <==> Readable(ds[..|ds| - 1], p)
  {
    assert ds[p.dir] == ds[..|ds| - 1][p.dir];
  }

  /** The sample the readable file at `p` gives: its image, labelled with its directory's name. */
  function SampleAt(ds: Listing, p: Position): (s: Sample)
    requires Readable(ds, p)
    ensures Some(s.image) == ds[p.dir].node.files[p.file].image && s.owner == ds[p.dir].name
  {
    Sample(ds[p.dir].node.files[p.file].image.value, ds[p.dir].name)
  }

  /** Directory `dir`'s positions for the file indices `idx`. */
  function DirPositions(dir: nat, idx: seq<nat>): (ps: seq<Position>)
    ensures |ps| == |idx|
    ensures forall m :: 0 <= m < |idx| ==> ps[m] == Position(dir, idx[m])
  {
    seq(|idx|, m requires 0 <= m < |idx| => Position(dir, idx[m]))
  }

  /**
   * Multiplicity over the listing: sample `m` is the image at the `m`-th
   * readable position, labelled with that position's directory name, so the
   * collection has exactly one sample per readable image.
   */
  lemma {:induction false} SamplesIndexed(ds: Listing)
    ensures var ps := ReadablePositions(ds);
            && |Samples(ds)| == |ps|
            && forall m :: 0 <= m < |ps| ==> Readable(ds, ps[m]) && Samples(ds)[m] == SampleAt(ds, ps[m])
    decreases |ds|
  {
    ReadablePositionsReadable(ds);
    if |ds| > 0 {
      var init := ds[..|ds| - 1];
      var e := ds[|ds| - 1];
      SamplesIndexed(init);
      var prev := ReadablePositions(init);
      var here := if e.node.Dir? then DirPositions(|ds| - 1, ReadableIndices(e.node.files)) else [];
      var mine := if e.node.Dir? then DirSamples(e.name, e.node.files) else [];
      var ps := prev + here;
      assert ReadablePositions(ds) == ps;
      assert Samples(ds) == Samples(init) + mine;
      assert |mine| == |here| by {
        if e.node.Dir? {
          DirSamplesIndexed(e.name, e.node.files);
        }
      }
      forall m | 0 <= m < |ps|
        ensures Samples(ds)[m] == SampleAt(ds, ps[m])
      {
        if m < |prev| {
          SamplesPrefixAt(ds, m);
        } else {
          SamplesLastAt(ds, m - |prev|);
        }
      }
    }
  }

  /** Step of `SamplesIndexed` for a sample from the directories before the last entry. */
  lemma SamplesPrefixAt(ds: Listing, m: nat)
    requires |ds| > 0
    requires var init := ds[..|ds| - 1];
             && |Samples(init)| == |ReadablePositions(init)| && m < |ReadablePositions(init)|
             && Readable(init, ReadablePositions(init)[m])
             && Samples(init)[m] == SampleAt(init, ReadablePositions(init)[m])
    ensures var p := ReadablePositions(ds[..|ds| - 1])[m];
            Readable(ds, p) && m < |Samples(ds)| && Samples(ds)[m] == SampleAt(ds, p)
  {
    var init := ds[..|ds| - 1];
    var p := ReadablePositions(init)[m];
    ReadableInit(ds, p);
    assert ds[p.dir] == init[p.dir];
    var e := ds[|ds| - 1];
    assert Samples(ds) == Samples(init) + (if e.node.Dir? then DirSamples(e.name, e.node.files) else []);
  }

  /** Step of `SamplesIndexed` for the `j`-th sample of the last entry, a directory. */
  lemma SamplesLastAt(ds: Listing, j: nat)
    requires |ds| > 0 && ds[|ds| - 1].node.Dir?
    requires j < |ReadableIndices(ds[|ds| - 1].node.files)|
    ensures var init := ds[..|ds| - 1];
            var p := Position(|ds| - 1, ReadableIndices(ds[|ds| - 1].node.files)[j]);
            && Readable(ds, p)
            && |Samples(init)| + j < |Samples(ds)|
            && Samples(ds)[|Samples(init)| + j] == SampleAt(ds, p)
  {
    var init := ds[..|ds| - 1];
    var e := ds[|ds| - 1];
    DirSamplesIndexed(e.name, e.node.files);
    assert Samples(ds) == Samples(init) + DirSamples(e.name, e.node.files);
  }

  /** `xs` and `ys` are the feature rows and owners of `samples`, in order. */
  ghost predicate Rows(xs: seq<Feature>, ys: seq<string>, samples: seq<Sample>, extract: Image -> Feature)
  {
    && |xs| == |ys| == |samples|
    && (forall k :: 0 <= k < |xs| ==> xs[k] == extract(samples[k].image))
    && (forall k :: 0 <= k < |ys| ==> ys[k] == samples[k].owner)
  }

  /** The inner loop of the assembly: one row per readable file of one directory. */
  method AssembleDir(owner: string, files: seq<FileEntry>, extract: Image -> Feature,
                     xs: seq<Feature>, ys: seq<string>, ghost before: seq<Sample>)
    returns (xs': seq<Feature>, ys': seq<string>)
    requires Rows(xs, ys, before, extract)
    ensures Rows(xs', ys', before + DirSamples(owner, files), extract)
  {
    xs', ys' := xs, ys;
    var j := 0;
    while j < |files|
      invariant j <= |files|
      invariant Rows(xs', ys', before + DirSamples(owner, files[..j]), extract)
    {
      assert files[..j + 1][..j] == files[..j];
      var f := files[j];
      if f.image.Some? {
        xs' := xs' + [extract(f.image.value)];
        ys' := ys' + [owner];
      }
      j := j + 1;
    }
    assert files[..j] == files;
  }

  /**
   * The assembly loops of `train_model`: for each directory of the listing,
   * for each file that decodes, one feature row and one owner.
   */
  method Assemble(ds: Listing, extract: Image -> Feature) returns (xs: seq<Feature>, ys: seq<string>)
    ensures |xs| == |ys| == |Samples(ds)|
    ensures forall k :: 0 <= k < |xs| ==> xs[k] == extract(Samples(ds)[k].image)
    ensures forall k :: 0 <= k < |ys| ==> ys[k] == Samples(ds)[k].owner
  {
    xs, ys := [], [];
    var i := 0;
    while i < |ds|
      invariant i <= |ds|
      invariant Rows(xs, ys, Samples(ds[..i]), extract)
    {
      var e := ds[i];
      assert ds[..i + 1][..i] == ds[..i];
      if e.node.Dir? {
        xs, ys := AssembleDir(e.name, e.node.files, extract, xs, ys, Samples(ds[..i]));
      }
      i := i + 1;
    }
    assert ds[..i] == ds;
  }

  /** The stored artifact: the encoder's classes and the coded training set the model was fitted to. */
  datatype Artifact = Artifact(classes: seq<string>, features: seq<Feature>, codes: seq<nat>)

  datatype TrainOutcome = NoTrainingData | FitFailed | WriteFailed | Trained

  /**
   * How writing the artifact goes. `open(path, "wb")` truncates the file
   * before `pickle.dump` writes, so a dump that raises leaves no loadable
   * artifact, while an `open` that raises leaves the old file as it was.
   */
  datatype Persist = OpenFailed | DumpFailed | Written

  /**
   * `train_model`. With no sample it reports the error and leaves the stored
   * artifact as it was. `fitOk` says whether encoding and fitting succeed; a
   * raised error is reported, and since it comes before the file is opened
   * the artifact is untouched. Otherwise the artifact is written as `persist`
   * says; a written artifact pairs every readable image's features with the
   * code of its directory name. `None` stands for "no loadable artifact".
   */
  method TrainModel(ds: Listing, stored: Option<Artifact>, extract: Image -> Feature, fitOk: bool, persist: Persist)
    returns (outcome: TrainOutcome, stored': Option<Artifact>)
    ensures outcome == NoTrainingData <==> |Samples(ds)| == 0
    ensures outcome == FitFailed <==> |Samples(ds)| > 0 && !fitOk
    ensures outcome == WriteFailed <==> |Samples(ds)| > 0 && fitOk && persist != Written
    ensures outcome == NoTrainingData || outcome == FitFailed ==> stored' == stored
    ensures outcome == WriteFailed && persist == OpenFailed ==> stored' == stored
    ensures outcome == WriteFailed && persist == DumpFailed ==> stored'.None?
    ensures outcome == Trained ==>
              && stored'.Some?
              && var a := stored'.value;
              && LabelEncoder.StrictlySorted(a.classes)
              && (forall k :: 0 <= k < |Samples(ds)| ==> Samples(ds)[k].owner in a.classes)
              && (forall l :: l in a.classes ==> exists k :: 0 <= k < |Samples(ds)| && Samples(ds)[k].owner == l)
              && |a.features| == |a.codes| == |Samples(ds)|
              && forall k :: 0 <= k < |a.codes| ==>
                   a.features[k] == extract(Samples(ds)[k].image) &&
                   a.codes[k] < |a.classes| && a.classes[a.codes[k]] == Samples(ds)[k].owner
  {
    var xs, ys := Assemble(ds, extract);
    if |xs| == 0 {
      return NoTrainingData, stored;
    }
    var enc := LabelEncoder.FitTransform(ys);
    if !fitOk {
      return FitFailed, stored;
    }
    match persist {
      case OpenFailed => outcome, stored' := WriteFailed, stored;
      case DumpFailed => outcome, stored' := WriteFailed, None;
      case Written => outcome, stored' := Trained, Some(Artifact(enc.classes, xs, enc.codes));
    }
  }
}
